=== FILE: README.md ===
# Conversational BI assistant: verified model of its own logic

The application is a chat page. It sends a business question to a
language model and asks the model for a JSON "envelope". When the envelope
asks for SQL execution, the application runs the query on a data warehouse.
It then shows the reply as a clarification text, a KPI, a table with a bar
chart, a warning or an error. This project models the application's own
logic in Dafny. The language model, the warehouse, JSON encoding, pandas
and the UI framework are foreign code, and appear here only as opaque
functions.

Modules, one per piece of `app.py`:

- `Wrappers`: `Option` (Python `None`) and `Result`, a value or the text of a raised exception.
- `Json`: decoded JSON values, `dict.get` and Python truthiness.
- `JsonSlice`: `clean_json_from_string`, which cuts from the first `{` to the last `}` with Python `find`/`rfind`/slice semantics.
- `Assistant`: `get_assistant_response`.
  - An EXECUTE reply becomes DATA.
  - Any other dict reply passes through unchanged.
  - A failed model call, a decode error, a non-dict reply or a failed query becomes ERROR.
  - The foreign calls are fields of `Backend`.
- `Display`: the dispatch in `process_and_display_prompt`.
  - The branches are CLARIFY text, empty-result warning, KPI with its format branch, table and chart, and error message.
  - Dispatch can also raise when a key lookup fails, when the DataFrame constructor rejects the content, or when a one-by-one KPI cannot be rendered.
- `ResponseCache`: the `@st.cache_data` memoisation, an unbounded store keyed by the prompt and the serialised history.
- `Session`: the two logs `messages` and `history_for_api`.
  - One prompt turn, "Clear Conversation" and first-run initialisation.
  - An invariant that every sequence of prompts and clears preserves.

Facts about the code that the model keeps:

- Rendering can raise, and the turn is then cut short.
  - A reply passed through with action CLARIFY but no `content` raises `KeyError` (app.py:137).
  - A DATA reply without `content` (app.py:142) or without `query_used` (app.py:173) raises `KeyError`.
  - Non-list DATA content can make `pd.DataFrame` raise (app.py:148).
  - A one-by-one result raises in the KPI branch when its column label is not a string (`.replace` at app.py:152), or when its value is not a number (the format specifications at app.py:154-156). So a query answering with one text value, such as a single e-mail address, cuts the turn short.
  - In all of these, the user message is already logged; no assistant message is logged, and `history_for_api` is unchanged.
- A decoded dict with no `action` key passes through (app.py:116) and is shown as an error message (app.py:178-181).
- A KPI is shown only for exactly one row and one column. The chart is always a bar chart of the first two columns; when the frame has fewer than two columns, or their labels are not strings, the chart's `try` (app.py:165-170) shows a warning instead.

## Model

| member | source | states |
|---|---|---|
| `Json.GetOr` | app.py:106 | `dict.get(key, default)`: the stored value when the key is present, the default otherwise |
| `Json.Get` | app.py:101-102 | `dict.get(key)`: the stored value when the key is present, `None` otherwise |
| `JsonSlice.Find` | app.py:83 | `str.find`: -1 exactly when the character is absent; otherwise its first position |
| `JsonSlice.RFind` | app.py:84 | `str.rfind`: -1 exactly when the character is absent; otherwise its last position |
| `JsonSlice.Slice` | app.py:86 | Python `s[lo:hi]` with non-negative bounds: clamped to the length, empty when the end is not after the start, otherwise the contiguous run starting at `lo` |
| `JsonSlice.CleanJson` | app.py:81-87 | Input returned unchanged when it lacks `{` or `}`. When the first `{` precedes the last `}`, returns exactly the text between them inclusive. When the last `}` precedes the first `{`, returns the empty string |
| `JsonSlice.CleanJsonFramed` | app.py:83-86 | When the first `{` precedes the last `}`, the result has at least two characters, opens with `{` and closes with `}` |
| `JsonSlice.CleanJsonIsSubstring` | app.py:81-87 | The result is always one contiguous piece of the input |
| `JsonSlice.CleanJsonIdempotent` | app.py:81-87 | Cleaning a cleaned text changes nothing |
| `Assistant.Respond` | app.py:90-121 | The returned envelope never has action EXECUTE. A failed call, a decode error or a non-dict reply gives ERROR, whose content names the cause: "An error occurred: " and the exception text for a failed call or a non-dict reply, and "The model responded in an unexpected format: '<text>'" for a decode error. A dict reply whose action is not EXECUTE comes back exactly as decoded. An EXECUTE reply becomes DATA or ERROR |
| `Assistant.ErrorEnvelope` | app.py:119-121 | The handler dict has exactly the keys action and content: action ERROR, content the message text |
| `Assistant.Execute` | app.py:104-114 | The EXECUTE branch gives DATA exactly when the query succeeds and ERROR exactly when it raises, with content "An error occurred: " and the warehouse's exception text. A DATA result has exactly the keys action, content, query_used and display_format. It carries the reply's SQL as `query_used`, the query's rows as `content`, and the reply's `display_format` or "number" when it gave none |
| `Assistant.ExecuteBecomesData` | app.py:104-114 | An EXECUTE reply whose query succeeds gives exactly the keys action, content, query_used and display_format. Action is DATA, content is the rows and `query_used` is the reply's SQL. `display_format` is the reply's value, or "number" when it gave none |
| `Assistant.ErrorIff` | app.py:95-121 | The envelope is ERROR if and only if one of these holds: the model call raised; the reply did not decode to a dict; the model itself answered ERROR; or the requested query raised |
| `Assistant.BracelessReplyIsError` | app.py:98-119 | With a parser that decodes dicts only from texts holding both braces, a reply missing `{` or `}` always gives ERROR |
| `Display.Dispatch` | app.py:134-181 | Dispatch raises if and only if one of these holds: CLARIFY lacks `content`; DATA lacks `content` or `query_used`; or truthy DATA content either makes the frame constructor raise or frames to a one-by-one KPI whose label is not a string or whose value is not a number. Any other action shows and logs an error built from `content` (`None` when missing). CLARIFY shows and logs its content verbatim. DATA logs the fixed placeholder |
| `Display.KpiFormatOf` | app.py:154-156 | The percentage branch is taken exactly for "percentage" and the currency branch exactly for "currency_usd". Every other value, including the "number" default, takes the grouped branch |
| `Display.DataView` | app.py:145-170 | The DATA view raises exactly when the content is truthy and the frame constructor raises or the KPI breaks. Falsy content gives the warning. A KPI is shown exactly for a one-by-one frame that renders, in the format `display_format` selects. Truthy content framing to any other shape shows the table; its chart is the bar chart exactly when the first two columns exist with string labels |
| `Display.KpiIff` | app.py:141-157 | A KPI is shown if and only if the DATA envelope is complete, its content is truthy, and it frames to exactly 1 row and 1 column with a string label and a numeric value. The format is percentage for "percentage", dollar currency for "currency_usd", and the grouped plain number otherwise |
| `Display.KpiRaises` | app.py:149-156 | A one-by-one frame with a non-string label or a non-numeric value makes the dispatch raise |
| `Display.TableView` | app.py:158-170 | Truthy DATA content that frames to anything but one by one shows the table. Its chart is the bar chart when the first two columns exist with string labels, and the warning otherwise |
| `Display.EmptyContentWarns` | app.py:145-146 | Falsy DATA content shows the no-results warning whatever the frame would be |
| `Display.RespondHasRequiredKeys` | app.py:104-121 | Every envelope the function builds itself carries the keys the dispatch reads. Only a model reply passed through unchanged can lack them |
| `ResponseCache.Cached` | app.py:89-90 | The function body runs exactly on a miss, and afterwards the key maps to the returned envelope. Earlier entries are kept. A faithful store stays faithful, and each answer equals the uncached result |
| `ResponseCache.Replay` | app.py:89-90 | Over any sequence of calls from a faithful store, each answer is what the uncached function returns for that call, and the store stays faithful |
| `ResponseCache.FreshCacheAnswersAsUncached` | app.py:89-90 | From the empty store the decorator starts with, every call in any sequence is answered as the uncached function would answer it |
| `ResponseCache.RepeatIsHit` | app.py:89-90 | A repeat of the identical prompt and history is a hit. It returns the same envelope and makes no second model or warehouse call |
| `Session.SerialiseHistory` | app.py:131 | The cache key has one serialised item per history entry, in order |
| `Session.Turn` | app.py:123-184 | Earlier entries of both logs are unchanged, and the user message is logged first. A turn raises if and only if the dispatch raises, with the dispatch's fault; it then adds only that message. A completed turn shows the dispatch's view and adds exactly one assistant message, carrying the dispatch's reply. It also appends exactly the user prompt and then the serialised envelope for the current history |
| `Session.Start` | app.py:238-240 | A session with no message log starts with both logs empty. An existing session is kept |
| `Session.Clear` | app.py:227-229 | Both logs are emptied together |
| `Session.ClearForgetsConversation` | app.py:227-229 | After a clear, the next prompt is answered exactly as in a fresh session, with an empty history |
| `Session.Step` | app.py:205-247 | A prompt (sidebar button or chat input) only appends to both logs. A clear empties both. Either keeps the log invariant |
| `Session.Run` | app.py:205-247 | With no clear among the actions, both starting logs are prefixes of the final ones, and at least one message per prompt is added |
| `Session.TurnKeepsWellFormed` | app.py:123-184 | A turn keeps the log invariant. `history_for_api` alternates user and model entries starting with the user, and has one pair per assistant message. Every assistant message follows a user message |
| `Session.RunKeepsWellFormed` | app.py:205-247 | Any sequence of prompts and clears keeps the log invariant |
| `Session.SessionLifetimeWellFormed` | app.py:238-247 | A session started by first-run initialisation keeps the log invariant forever |
| `Session.ExecuteTurnView` | app.py:104-170 | For an EXECUTE reply whose query returns non-empty rows, the turn raises exactly when the rows frame to one by one with a non-string label or a non-numeric value. Otherwise a 1×1 frame shows a KPI in the reply's format. Any other shape completes the turn with the table, and a bar chart when the first two columns exist with string labels |
| `Session.BracelessTurnShowsError` | app.py:98-181 | A reply missing either brace completes the turn, showing and logging an error message |

## Left out

- Rendering: Streamlit calls (`st.*`), page configuration, CSS, spinner, expander, chat replay (app.py:242-244) and `st.rerun`. The model keeps only which view is chosen and what is logged.
- The language model and the warehouse are opaque total functions in `Backend`. The language model is a fixed function of the prompt and the serialised history, so its sampling randomness is not modelled. Exception texts are opaque strings.
- `json.loads` is the `parse` field, whose `None` is a decode error. `json.dumps` is the `dumps` field. Decoding failures other than a decode error are not modelled; in the code they would also end as ERROR through the generic handler.
- A decoded dict is a `map`, so the model loses its key insertion order. In the code, `json.dumps` writes that order into `history_for_api` (app.py:184) and into the cache key (app.py:131). Two replies that differ only in key order therefore give different history texts and cache keys in the code, but the same ones in the model.
- `ResponseCache.Cached`: the language model and the warehouse are fixed functions of their inputs, so every stored envelope equals a fresh call by construction. In the code, `@st.cache_data` also stores the ERROR dicts the handlers build for a transient failure (app.py:118-121), such as a dropped connection, a quota error or a failed query, and stores rows that later go stale. A repeat of the same prompt and serialised history replays them without a new call. This includes the first question asked again after "Clear Conversation" (app.py:228-229 empties the history, so the key repeats) and the same first question in another session. The model shows the replay (`RepeatIsHit`) but cannot show that it differs from a fresh call.
- JSON floats are modelled as finite reals. Python's `json.loads` also accepts `NaN`, `Infinity` and `-Infinity` by default; `nan` is truthy at app.py:145.
- The history items are decoded at app.py:94, outside the `try`. They are always outputs of `json.dumps`, so the model assumes they decode and gives the model call the serialised tuple directly.
- `pd.DataFrame` is the `frame` field. Only its refusal, its row and column counts, whether its leading labels are strings, and whether its top-left value is a number drive the dispatch. The `to_json(orient='records')` round trip is folded into the warehouse result.
- `Display.Dispatch`: the KPI value formatting (`f"{v:,.2f}%"`, `f"${v:,.2f}"`, `f"{v:,}"`) is floating-point formatting. Only the branch, and whether it raises, is modelled. Whether the label is a string and the value a number are flags the `frame` function reports.
- `Display.Dispatch`: `px.bar` failures other than too few columns or non-string labels are not modelled. The text of the KPI label and chart title is not modelled.
- `Assistant.Respond`: a failure of the model call is assumed not to be a `json.JSONDecodeError`. If `start_chat` or `send_message` (app.py:96-97) raised one, the handler at app.py:119 would read the unbound `response`, and an `UnboundLocalError` would escape. A warehouse failure is likewise assumed not to be a `json.JSONDecodeError`; one would take the "unexpected format" message instead of "An error occurred".
- Startup authentication and `st.stop()` (app.py:37-42, 71-76) are environment I/O and are not modelled.
- `languages.py` is a static table of UI strings and is not part of this model.

=== FILE: assistant.dfy ===
/** `get_assistant_response`: ask the language model, decode its reply, and
    when the reply asks for SQL execution run the query and rewrite the reply
    into a DATA envelope. Every failure on the way becomes an ERROR envelope. */
module Assistant {
  import opened Wrappers
  import opened Json
  import opened JsonSlice

  /** A response envelope: the dict the function returns. */
  type Envelope = Dict

  /** The foreign services, as total functions.
      - `llm(prompt, history)`: the chat model's reply text for a prompt and the
        serialised prior turns, or the message of the exception it raised;
      - `parse(text)`: `json.loads`, `None` on a decode error;
      - `warehouse(sql)`: the query's rows as decoded `to_json(orient='records')`
        output, or the message of the exception the warehouse raised. */
  datatype Backend = Backend(
    llm: (string, seq<string>) -> Result<string, string>,
    parse: string -> Option<Json>,
    warehouse: Json -> Result<Json, string>)

  const ErrorPrefix := "An error occurred: "

  /** `{"action": "ERROR", "content": message}`. */
  function ErrorEnvelope(message: string): (r: Envelope)
    ensures Get(r, "action") == JStr("ERROR")
    ensures r.Keys == {"action", "content"} && r["content"] == JStr(message)
  {
    map["action" := JStr("ERROR"), "content" := JStr(message)]
  }

  /** The value of the `action` key, `None` when missing. */
  function ActionOf(env: Envelope): Json
  {
    Get(env, "action")
  }

  /** The model's reply decoded to a dict, when it is one: what the function
      returns unchanged unless the reply asks for execution. */
  function ModelReply(b: Backend, prompt: string, history: seq<string>): Option<Envelope>
  {
    match b.llm(prompt, history)
    case Failure(_) => None
    case Success(text) =>
      match b.parse(CleanJson(text))
      case Some(JObj(fields)) => Some(fields)
      case _ => None
  }

  /** The EXECUTE branch: run the reply's `content` as SQL and build the DATA
      envelope; `display_format` defaults to "number". */
  function Execute(b: Backend, reply: Envelope): (r: Envelope)
    ensures ActionOf(r) == JStr("DATA") <==> b.warehouse(Get(reply, "content")).Success?
    ensures ActionOf(r) == JStr("ERROR") <==> b.warehouse(Get(reply, "content")).Failure?
    ensures ActionOf(r) == JStr("DATA") ==>
      && "query_used" in r && "content" in r
      && r["query_used"] == Get(reply, "content")
      && r["content"] == b.warehouse(Get(reply, "content")).value
      && r.Keys == {"action", "content", "query_used", "display_format"}
      && ("display_format" in reply ==> r["display_format"] == reply["display_format"])
      && ("display_format" !in reply ==> r["display_format"] == JStr("number"))
    ensures b.warehouse(Get(reply, "content")).Failure? ==>
      r == ErrorEnvelope(ErrorPrefix + b.warehouse(Get(reply, "content")).error)
  {
    var sql := Get(reply, "content");
    var displayFormat := GetOr(reply, "display_format", JStr("number"));
    match b.warehouse(sql)
    case Failure(e) => ErrorEnvelope(ErrorPrefix + e)
    case Success(rows) =>
      map["action" := JStr("DATA"), "content" := rows,
          "query_used" := sql, "display_format" := displayFormat]
  }

  /** The body of `get_assistant_response`. A pure function of its two
      arguments, which is what the memoising decorator relies on. */
  function Respond(b: Backend, prompt: string, history: seq<string>): (r: Envelope)
    ensures ActionOf(r) != JStr("EXECUTE")
    ensures ModelReply(b, prompt, history).None? ==> ActionOf(r) == JStr("ERROR")
    ensures match ModelReply(b, prompt, history)
            case None => true
            case Some(reply) =>
              (ActionOf(reply) != JStr("EXECUTE") ==> r == reply)
              && (ActionOf(reply) == JStr("EXECUTE") ==> ActionOf(r) in {JStr("DATA"), JStr("ERROR")})
    ensures b.llm(prompt, history).Failure? ==> r == ErrorEnvelope(ErrorPrefix + b.llm(prompt, history).error)
    ensures b.llm(prompt, history).Success? && b.parse(CleanJson(b.llm(prompt, history).value)).None? ==>
      r == ErrorEnvelope("The model responded in an unexpected format: '" + b.llm(prompt, history).value + "'")
    ensures (b.llm(prompt, history).Success? && b.parse(CleanJson(b.llm(prompt, history).value)).Some?
             && !b.parse(CleanJson(b.llm(prompt, history).value)).value.JObj?) ==>
      r == ErrorEnvelope(ErrorPrefix + "'" + PyTypeName(b.parse(CleanJson(b.llm(prompt, history).value)).value)
                         + "' object has no attribute 'get'")
  {
    match b.llm(prompt, history)
    case Failure(e) => ErrorEnvelope(ErrorPrefix + e)
    case Success(text) =>
      match b.parse(CleanJson(text))
      case None => ErrorEnvelope("The model responded in an unexpected format: '" + text + "'")
      case Some(reply) =>
        match reply
        case JObj(fields) =>
          if ActionOf(fields) == JStr("EXECUTE") then Execute(b, fields) else fields
        case _ =>
          ErrorEnvelope(ErrorPrefix + "'" + PyTypeName(reply) + "' object has no attribute 'get'")
  }

  /** An EXECUTE reply whose query succeeds becomes a DATA envelope carrying
      the rows, the query text as `query_used`, and the reply's
      `display_format` or "number" when it gave none. */
  lemma ExecuteBecomesData(b: Backend, prompt: string, history: seq<string>, reply: Envelope, rows: Json)
    requires ModelReply(b, prompt, history) == Some(reply)
    requires ActionOf(reply) == JStr("EXECUTE")
    requires b.warehouse(Get(reply, "content")) == Success(rows)
    ensures var r := Respond(b, prompt, history);
      && r.Keys == {"action", "content", "query_used", "display_format"}
      && r["action"] == JStr("DATA")
      && r["content"] == rows
      && r["query_used"] == Get(reply, "content")
      && ("display_format" in reply ==> r["display_format"] == reply["display_format"])
      && ("display_format" !in reply ==> r["display_format"] == JStr("number"))
  {
  }

  /** An ERROR envelope comes out exactly when the model call raised, its
      reply did not decode to a dict, the requested query raised, or the
      model itself answered with action ERROR. */
  lemma ErrorIff(b: Backend, prompt: string, history: seq<string>)
    ensures ActionOf(Respond(b, prompt, history)) == JStr("ERROR") <==>
      match ModelReply(b, prompt, history)
      case None => true
      case Some(reply) =>
        || ActionOf(reply) == JStr("ERROR")
        || (ActionOf(reply) == JStr("EXECUTE") && b.warehouse(Get(reply, "content")).Failure?)
  {
  }

  /** A JSON parser that only yields a dict from a text holding both braces,
      as every JSON object does. */
  ghost predicate ObjectsNeedBraces(parse: string -> Option<Json>)
  {
    forall t :: parse(t).Some? && parse(t).value.JObj? ==> '{' in t && '}' in t
  }

  /** A reply text missing either brace always ends as an ERROR envelope:
      the slicer hands the text over unchanged and it cannot decode to a dict. */
  lemma BracelessReplyIsError(b: Backend, prompt: string, history: seq<string>, text: string)
    requires ObjectsNeedBraces(b.parse)
    requires b.llm(prompt, history) == Success(text)
    requires '{' !in text || '}' !in text
    ensures ActionOf(Respond(b, prompt, history)) == JStr("ERROR")
  {
  }
}

=== FILE: display.dfy ===
/** The display dispatch of `process_and_display_prompt`: which widget the
    envelope produces and which assistant message is logged for it. A few
    malformed envelopes make the dispatch raise, which the model keeps. */
module Display {
  import opened Wrappers
  import opened Json
  import opened Assistant

  /** What the dispatch reads from the DataFrame built from DATA content:
      its row and column counts; whether its leading column labels (the
      first two, or all of them when there are fewer) are strings, which
      the label and chart-title `.replace` calls need; and whether its
      top-left cell is a number, which the KPI format specifications need. */
  datatype Shape = Shape(rows: nat, cols: nat, labelsText: bool, cellNumeric: bool)

  /** `pd.DataFrame(content)`: its shape, or `None` when the constructor raises. */
  type Frame = Json -> Option<Shape>

  /** Which format branch a single-value KPI takes. */
  datatype KpiFormat = Percentage | CurrencyUsd | Grouped

  /** The chart column of the table view: a bar chart of the first two
      columns, or the warning shown when building it raised. */
  datatype Chart = BarChart | ChartWarning

  /** What is shown for one reply. */
  datatype View =
    | ClarifyText(text: Json)
    | EmptyWarning
    | Kpi(format: KpiFormat)
    | TableAndChart(chart: Chart)
    | ErrorMessage(detail: Json)

  /** The content of a logged chat message: the user's text or a fixed
      assistant text, a clarification value shown verbatim, or the
      "An error occurred: ..." text built from an envelope's content. */
  datatype Content = Plain(text: string) | Verbatim(value: Json) | ErrorNote(detail: Json)

  const DataPlaceholder := "[Displaying data and charts]"

  /** What raised: a key lookup, the DataFrame constructor, or the KPI's
      label title-casing or value formatting. */
  datatype Fault = MissingKey(key: string) | FrameRejected | KpiFailed

  /** A completed dispatch (what was shown and the assistant message to log),
      or the exception that escaped it. */
  datatype Dispatched = Shown(view: View, reply: Content) | Raised(fault: Fault)

  /** The format branch of the KPI value. */
  function KpiFormatOf(displayFormat: Json): (r: KpiFormat)
    ensures r == Percentage <==> displayFormat == JStr("percentage")
    ensures r == CurrencyUsd <==> displayFormat == JStr("currency_usd")
    ensures r == Grouped <==> displayFormat != JStr("percentage") && displayFormat != JStr("currency_usd")
  {
    if displayFormat == JStr("percentage") then Percentage
    else if displayFormat == JStr("currency_usd") then CurrencyUsd
    else Grouped
  }

  /** A one-by-one frame whose KPI cannot be rendered: `.replace` on a
      non-string label raises, and so do the numeric format specifications
      on a text, null or container value. */
  predicate KpiBreaks(shape: Shape)
  {
    shape.rows == 1 && shape.cols == 1 && !(shape.labelsText && shape.cellNumeric)
  }

  /** The DATA content cannot be rendered: it is truthy and the DataFrame
      constructor raises on it, or it frames to a KPI that breaks. */
  predicate ContentBreaks(content: Json, frame: Frame)
  {
    Truthy(content) && (frame(content).None? || KpiBreaks(frame(content).value))
  }

  /** The DATA view: a warning when the content is falsy, a KPI for a
      one-by-one frame, else the table and, when the first two columns
      exist and carry string labels, their bar chart. */
  function DataView(content: Json, displayFormat: Json, frame: Frame): (r: Result<View, Fault>)
    ensures r.Failure? <==> ContentBreaks(content, frame)
    ensures !Truthy(content) ==> r == Success(EmptyWarning)
    ensures r.Success? && Truthy(content) ==> frame(content).Some?
    ensures r.Success? && r.value.Kpi? <==>
      Truthy(content) && frame(content).Some? && frame(content).value.rows == 1 && frame(content).value.cols == 1
      && !KpiBreaks(frame(content).value)
    ensures r.Success? && r.value.TableAndChart? ==>
      r.value.chart == (if frame(content).value.cols >= 2 && frame(content).value.labelsText then BarChart else ChartWarning)
    ensures r.Success? && r.value.Kpi? ==> r.value.format == KpiFormatOf(displayFormat)
    ensures Truthy(content) && frame(content).Some? && (frame(content).value.rows != 1 || frame(content).value.cols != 1) ==>
      r.Success? && r.value.TableAndChart?
  {
    if !Truthy(content) then Success(EmptyWarning)
    else match frame(content)
      case None => Failure(FrameRejected)
      case Some(shape) =>
        if shape.rows == 1 && shape.cols == 1 then
          if shape.labelsText && shape.cellNumeric then Success(Kpi(KpiFormatOf(displayFormat)))
          else Failure(KpiFailed)
        else Success(TableAndChart(if shape.cols >= 2 && shape.labelsText then BarChart else ChartWarning))
  }

  /** An envelope every branch can render without a failed key lookup:
      CLARIFY needs `content`, DATA needs `content` and `query_used`. */
  predicate HasRequiredKeys(env: Envelope)
  {
    && (ActionOf(env) == JStr("CLARIFY") ==> "content" in env)
    && (ActionOf(env) == JStr("DATA") ==> "content" in env && "query_used" in env)
  }

  /** The DataFrame constructor or the KPI rendering is reached and raises. */
  predicate RenderFails(env: Envelope, frame: Frame)
  {
    && ActionOf(env) == JStr("DATA")
    && "content" in env
    && ContentBreaks(env["content"], frame)
  }

  function Dispatch(env: Envelope, frame: Frame): (r: Dispatched)
    ensures r.Raised? <==> !HasRequiredKeys(env) || RenderFails(env, frame)
    ensures ActionOf(env) != JStr("CLARIFY") && ActionOf(env) != JStr("DATA") ==>
      r == Shown(ErrorMessage(Get(env, "content")), ErrorNote(Get(env, "content")))
    ensures r.Shown? && ActionOf(env) == JStr("CLARIFY") ==>
      r.view == ClarifyText(env["content"]) && r.reply == Verbatim(env["content"])
    ensures r.Shown? && ActionOf(env) == JStr("DATA") ==> r.reply == Plain(DataPlaceholder)
  {
    var action := ActionOf(env);
    if action == JStr("CLARIFY") then
      if "content" !in env then Raised(MissingKey("content"))
      else Shown(ClarifyText(env["content"]), Verbatim(env["content"]))
    else if action == JStr("DATA") then
      if "content" !in env then Raised(MissingKey("content"))
      else
        var displayFormat := GetOr(env, "display_format", JStr("number"));
        match DataView(env["content"], displayFormat, frame)
        case Failure(fault) => Raised(fault)
        case Success(view) =>
          if "query_used" !in env then Raised(MissingKey("query_used"))
          else Shown(view, Plain(DataPlaceholder))
    else
      var detail := Get(env, "content");
      Shown(ErrorMessage(detail), ErrorNote(detail))
  }

  /** A KPI is shown exactly for a complete DATA envelope whose content is
      truthy and frames to one row and one column with a string label and a
      numeric value; its format is percentage or dollar currency when
      `display_format` names them, grouped otherwise. */
  lemma KpiIff(env: Envelope, frame: Frame, f: KpiFormat)
    ensures Dispatch(env, frame) == Shown(Kpi(f), Plain(DataPlaceholder)) <==>
      && ActionOf(env) == JStr("DATA")
      && "content" in env && "query_used" in env
      && Truthy(env["content"])
      && frame(env["content"]) == Some(Shape(1, 1, true, true))
      && f == (match GetOr(env, "display_format", JStr("number"))
               case JStr("percentage") => Percentage
               case JStr("currency_usd") => CurrencyUsd
               case _ => Grouped)
  {
  }

  /** A one-by-one frame whose label is not a string or whose value is not
      a number makes the KPI rendering raise. */
  lemma KpiRaises(env: Envelope, frame: Frame, shape: Shape)
    requires ActionOf(env) == JStr("DATA") && HasRequiredKeys(env)
    requires Truthy(env["content"]) && frame(env["content"]) == Some(shape)
    requires shape.rows == 1 && shape.cols == 1
    requires !shape.labelsText || !shape.cellNumeric
    ensures Dispatch(env, frame) == Raised(KpiFailed)
  {
  }

  /** Truthy DATA content that frames to anything but one by one shows the
      table, with the bar chart when the first two columns exist and carry
      string labels and the chart warning otherwise. */
  lemma TableView(env: Envelope, frame: Frame, shape: Shape)
    requires ActionOf(env) == JStr("DATA") && HasRequiredKeys(env)
    requires Truthy(env["content"]) && frame(env["content"]) == Some(shape)
    requires shape.rows != 1 || shape.cols != 1
    ensures Dispatch(env, frame) ==
      Shown(TableAndChart(if shape.cols >= 2 && shape.labelsText then BarChart else ChartWarning), Plain(DataPlaceholder))
  {
  }

  /** Empty DATA content shows the no-results warning whatever the frame. */
  lemma EmptyContentWarns(env: Envelope, frame: Frame)
    requires ActionOf(env) == JStr("DATA") && HasRequiredKeys(env)
    requires !Truthy(env["content"])
    ensures Dispatch(env, frame) == Shown(EmptyWarning, Plain(DataPlaceholder))
  {
  }

  /** Every envelope built locally (an ERROR, or the DATA made from an
      EXECUTE reply) has the keys the dispatch reads; only a reply passed
      through unchanged from the model can lack them. */
  lemma RespondHasRequiredKeys(b: Backend, prompt: string, history: seq<string>)
    ensures var r := Respond(b, prompt, history);
      HasRequiredKeys(r) || ModelReply(b, prompt, history) == Some(r)
  {
  }
}

=== FILE: json.dfy ===
/** JSON values as the application sees them after `json.loads`: Python
    `None`, booleans, integers, floats, strings, lists and dicts. */
module Json {

  datatype Json =
    | JNull
    | JBool(b: bool)
    | JInt(i: int)
    | JFloat(f: real)
    | JStr(s: string)
    | JArr(items: seq<Json>)
    | JObj(fields: map<string, Json>)

  /** A Python dict with string keys, as produced by `json.loads` of an object. */
  type Dict = map<string, Json>

  /** `d.get(key, default)`: the stored value, or `default` when the key is absent. */
  function GetOr(d: Dict, key: string, default: Json): (r: Json)
    ensures key in d ==> r == d[key]
    ensures key !in d ==> r == default
  {
    if key in d then d[key] else default
  }

  /** `d.get(key)`: a missing key reads as `None`. */
  function Get(d: Dict, key: string): (r: Json)
    ensures key in d ==> r == d[key]
    ensures key !in d ==> r == JNull
  {
    GetOr(d, key, JNull)
  }

  /** Python truthiness, as used by `if not value`: `None`, `False`, zero and
      empty containers are false, everything else is true. */
  predicate Truthy(j: Json)
  {
    match j
    case JNull => false
    case JBool(b) => b
    case JInt(i) => i != 0
    case JFloat(f) => f != 0.0
    case JStr(s) => |s| > 0
    case JArr(items) => |items| > 0
    case JObj(fields) => |fields| > 0
  }

  /** The name Python reports for the type of a decoded JSON value. */
  function PyTypeName(j: Json): string
  {
    match j
    case JNull => "NoneType"
    case JBool(_) => "bool"
    case JInt(_) => "int"
    case JFloat(_) => "float"
    case JStr(_) => "str"
    case JArr(_) => "list"
    case JObj(_) => "dict"
  }
}

=== FILE: json_slice.dfy ===
/** `clean_json_from_string`: cut the candidate JSON object out of the raw
    model text, from the first `{` to the last `}` inclusive. */
module JsonSlice {

  /** `i` is the position of the first occurrence of `c` in `s`. */
  ghost predicate FirstAt(s: string, c: char, i: int)
  {
    0 <= i < |s| && s[i] == c && c !in s[..i]
  }

  /** `j` is the position of the last occurrence of `c` in `s`. */
  ghost predicate LastAt(s: string, c: char, j: int)
  {
    0 <= j < |s| && s[j] == c && c !in s[j + 1..]
  }

  /** Python's `s.find(c)`: the first index of `c`, or -1 when absent. */
  function Find(s: string, c: char): (r: int)
    ensures r == -1 <==> c !in s
    ensures r != -1 ==> FirstAt(s, c, r)
  {
    if |s| == 0 then -1
    else if s[0] == c then 0
    else
      var k := Find(s[1..], c);
      if k == -1 then -1
      else
        assert s[..k + 1] == [s[0]] + s[1..][..k];
        k + 1
  }

  /** Python's `s.rfind(c)`: the last index of `c`, or -1 when absent. */
  function RFind(s: string, c: char): (r: int)
    ensures r == -1 <==> c !in s
    ensures r != -1 ==> LastAt(s, c, r)
  {
    if |s| == 0 then -1
    else if s[|s| - 1] == c then |s| - 1
    else
      var k := RFind(s[..|s| - 1], c);
      if k != -1 then
        assert s[k + 1..] == s[..|s| - 1][k + 1..] + [s[|s| - 1]];
        k
      else
        assert s == s[..|s| - 1] + [s[|s| - 1]];
        -1
  }

  function Min(a: int, b: int): int
  {
    if a <= b then a else b
  }

  /** Python's `s[lo:hi]` for non-negative bounds: both bounds are clamped to
      the length, and a slice whose end is not after its start is empty. */
  function Slice(s: string, lo: nat, hi: nat): (r: string)
    ensures |r| == (if Min(hi, |s|) <= Min(lo, |s|) then 0 else Min(hi, |s|) - Min(lo, |s|))
    ensures forall k :: 0 <= k < |r| ==> r[k] == s[lo + k]
  {
    var a := Min(lo, |s|);
    var b := Min(hi, |s|);
    if b <= a then [] else s[a..b]
  }

  /** The slicer as written: find the first `{` and the last `}`; when both
      exist return `text[start:end + 1]`, otherwise the text unchanged. */
  function CleanJson(text: string): (r: string)
    ensures '{' !in text || '}' !in text ==> r == text
    ensures forall i, j :: FirstAt(text, '{', i) && LastAt(text, '}', j) && i < j ==> r == text[i..j + 1]
    ensures forall i, j :: FirstAt(text, '{', i) && LastAt(text, '}', j) && j < i ==> r == []
  {
    var start := Find(text, '{');
    var end := RFind(text, '}');
    if start != -1 && end != -1 then
      assert start != end;
      var r := Slice(text, start, end + 1);
      assert start < end ==> r == text[start..end + 1];
      r
    else text
  }

  /** When the first `{` precedes the last `}`, the result is framed by them:
      it opens with `{` and closes with `}`. */
  lemma CleanJsonFramed(text: string, i: int, j: int)
    requires FirstAt(text, '{', i) && LastAt(text, '}', j) && i < j
    ensures var r := CleanJson(text);
      |r| >= 2 && r[0] == '{' && r[|r| - 1] == '}'
  {
    var r := CleanJson(text);
    assert r == text[i..j + 1];
    assert |r| == j + 1 - i;
    assert r[0] == text[i] && r[|r| - 1] == text[j];
  }

  /** The result is always one contiguous piece of the input. */
  lemma CleanJsonIsSubstring(text: string)
    ensures exists lo, hi :: 0 <= lo <= hi <= |text| && CleanJson(text) == text[lo..hi]
  {
    var start := Find(text, '{');
    var end := RFind(text, '}');
    if start != -1 && end != -1 {
      if start < end {
        assert CleanJson(text) == text[start..end + 1];
      } else {
        assert CleanJson(text) == text[0..0];
      }
    } else {
      assert CleanJson(text) == text[0..|text|];
    }
  }

  /** Cleaning an already cleaned text changes nothing. */
  lemma CleanJsonIdempotent(text: string)
    ensures CleanJson(CleanJson(text)) == CleanJson(text)
  {
    var r := CleanJson(text);
    var start := Find(text, '{');
    var end := RFind(text, '}');
    if start != -1 && end != -1 && start < end {
      assert r == text[start..end + 1];
      assert FirstAt(r, '{', 0);
      assert LastAt(r, '}', |r| - 1);
      assert r[0..|r| - 1 + 1] == r;
    }
  }
}

=== FILE: response_cache.dfy ===
/** The memoisation `@st.cache_data` puts around `get_assistant_response`:
    a store keyed by the exact prompt and the exact tuple of serialised
    history items, filled on a miss and never evicted. */
module ResponseCache {
  import opened Assistant

  type Key = (string, seq<string>)

  type Store = map<Key, Envelope>

  /** Every stored envelope is what the uncached function returns for its key. */
  ghost predicate Faithful(b: Backend, store: Store)
  {
    forall k :: k in store ==> store[k] == Respond(b, k.0, k.1)
  }

  /** The envelope handed back, the store afterwards, and whether the
      function body ran (and so called the model and the warehouse). */
  datatype Lookup = Lookup(envelope: Envelope, store: Store, computed: bool)

  function Cached(b: Backend, store: Store, prompt: string, history: seq<string>): (r: Lookup)
    ensures r.computed <==> (prompt, history) !in store
    ensures (prompt, history) in r.store && r.store[(prompt, history)] == r.envelope
    ensures r.store.Keys == store.Keys + {(prompt, history)}
    ensures forall k :: k in store ==> r.store[k] == store[k]
    ensures Faithful(b, store) ==> Faithful(b, r.store) && r.envelope == Respond(b, prompt, history)
  {
    var key := (prompt, history);
    if key in store then Lookup(store[key], store, false)
    else
      var env := Respond(b, prompt, history);
      Lookup(env, store[key := env], true)
  }

  /** Asking again with the identical prompt and history is answered from the
      store: the same envelope, no second call to the model or warehouse. */
  lemma RepeatIsHit(b: Backend, store: Store, prompt: string, history: seq<string>)
    ensures var first := Cached(b, store, prompt, history);
      var second := Cached(b, first.store, prompt, history);
      !second.computed && second.envelope == first.envelope && second.store == first.store
  {
  }

  /** The empty store the decorator starts with is faithful. */
  lemma EmptyStoreIsFaithful(b: Backend)
    ensures Faithful(b, map[])
  {
  }

  /** A sequence of cached calls: the envelopes handed back, in order, and
      the store at the end. Starting from a faithful store, every answer is
      what the uncached function returns for that call, and the store stays
      faithful. */
  function Replay(b: Backend, store: Store, calls: seq<Key>): (r: (seq<Envelope>, Store))
    ensures |r.0| == |calls|
    ensures Faithful(b, store) ==>
      && Faithful(b, r.1)
      && forall i :: 0 <= i < |calls| ==> r.0[i] == Respond(b, calls[i].0, calls[i].1)
    decreases |calls|
  {
    if |calls| == 0 then ([], store)
    else
      var first := Cached(b, store, calls[0].0, calls[0].1);
      var rest := Replay(b, first.store, calls[1..]);
      assert forall i :: 0 < i < |calls| ==> calls[i] == calls[1..][i - 1];
      ([first.envelope] + rest.0, rest.1)
  }

  /** From the empty store the decorator starts with, any sequence of calls
      answers each exactly as the uncached function would. */
  lemma FreshCacheAnswersAsUncached(b: Backend, calls: seq<Key>)
    ensures var r := Replay(b, map[], calls);
      forall i :: 0 <= i < |calls| ==> r.0[i] == Respond(b, calls[i].0, calls[i].1)
  {
  }
}

=== FILE: session.dfy ===
/** The session state of the chat page: the displayed message log
    `messages` and the model-bound log `history_for_api`, changed by one
    prompt turn, by the "Clear Conversation" button and by first-run
    initialisation. */
module Session {
  import opened Wrappers
  import opened Json
  import opened Assistant
  import opened Display

  /** Roles of the displayed messages. */
  datatype Role = UserRole | AssistantRole

  datatype Message = Message(role: Role, content: Content)

  /** Roles of the model-bound history entries ("user" and "model"). */
  datatype Speaker = UserTurn | ModelTurn

  /** `{"role": ..., "parts": [part]}`. */
  datatype Entry = Entry(speaker: Speaker, part: string)

  datatype State = State(messages: seq<Message>, history: seq<Entry>)

  /** The foreign services a turn uses: model and warehouse, the DataFrame
      constructor, and `json.dumps`. */
  datatype Runtime = Runtime(backend: Backend, frame: Frame, dumps: Json -> string)

  function EntryJson(e: Entry): Json
  {
    JObj(map["role" := JStr(if e.speaker == UserTurn then "user" else "model"),
             "parts" := JArr([JStr(e.part)])])
  }

  /** The cache key: the history serialised item by item, in order. */
  function SerialiseHistory(dumps: Json -> string, entries: seq<Entry>): (r: seq<string>)
    ensures |r| == |entries|
    ensures forall i :: 0 <= i < |entries| ==> r[i] == dumps(EntryJson(entries[i]))
  {
    if |entries| == 0 then []
    else SerialiseHistory(dumps, entries[..|entries| - 1]) + [dumps(EntryJson(entries[|entries| - 1]))]
  }

  /** One prompt turn: completed, or cut short by an exception in the dispatch. */
  datatype TurnOutcome =
    | Completed(state: State, view: View, envelope: Envelope)
    | Crashed(state: State, fault: Fault)

  /** `process_and_display_prompt`: log the user message, get the (memoised)
      envelope for the prompt and the current history, dispatch it, log the
      assistant message, then append the prompt and the serialised envelope
      to the model-bound history. An exception in the dispatch leaves the
      user message logged and the rest undone. */
  function Turn(rt: Runtime, s: State, prompt: string): (r: TurnOutcome)
    ensures |r.state.messages| > |s.messages|
    ensures r.state.messages[..|s.messages|] == s.messages
    ensures r.state.messages[|s.messages|] == Message(UserRole, Plain(prompt))
    ensures r.Crashed? <==>
      Dispatch(Respond(rt.backend, prompt, SerialiseHistory(rt.dumps, s.history)), rt.frame).Raised?
    ensures r.Crashed? ==> |r.state.messages| == |s.messages| + 1 && r.state.history == s.history
    ensures r.Crashed? ==>
      r.fault == Dispatch(Respond(rt.backend, prompt, SerialiseHistory(rt.dumps, s.history)), rt.frame).fault
    ensures r.Completed? ==>
      && r.envelope == Respond(rt.backend, prompt, SerialiseHistory(rt.dumps, s.history))
      && |r.state.messages| == |s.messages| + 2
      && r.view == Dispatch(r.envelope, rt.frame).view
      && r.state.messages[|s.messages| + 1] == Message(AssistantRole, Dispatch(r.envelope, rt.frame).reply)
      && |r.state.history| == |s.history| + 2
      && r.state.history[..|s.history|] == s.history
      && r.state.history[|s.history|] == Entry(UserTurn, prompt)
      && r.state.history[|s.history| + 1] == Entry(ModelTurn, rt.dumps(JObj(r.envelope)))
  {
    var logged := s.messages + [Message(UserRole, Plain(prompt))];
    var env := Respond(rt.backend, prompt, SerialiseHistory(rt.dumps, s.history));
    match Dispatch(env, rt.frame)
    case Raised(fault) => Crashed(State(logged, s.history), fault)
    case Shown(view, reply) =>
      var messages := logged + [Message(AssistantRole, reply)];
      var history := s.history + [Entry(UserTurn, prompt), Entry(ModelTurn, rt.dumps(JObj(env)))];
      Completed(State(messages, history), view, env)
  }

  /** The empty session. */
  const Init := State([], [])

  /** First-run initialisation: a session without a message log starts with
      both logs empty; an existing session is kept. */
  function Start(existing: Option<State>): (r: State)
    ensures existing.Some? ==> r == existing.value
    ensures existing.None? ==> |r.messages| == 0 && |r.history| == 0
  {
    match existing
    case Some(s) => s
    case None => Init
  }

  /** "Clear Conversation": both logs are emptied together. */
  function Clear(s: State): (r: State)
    ensures r.messages == [] && r.history == []
  {
    Init
  }

  /** After a clear the next prompt is answered exactly as in a fresh
      session: the model sees an empty history. */
  lemma ClearForgetsConversation(rt: Runtime, s: State, prompt: string)
    ensures Turn(rt, Clear(s), prompt) == Turn(rt, Init, prompt)
    ensures Turn(rt, Clear(s), prompt).Completed? ==>
      Turn(rt, Clear(s), prompt).envelope == Respond(rt.backend, prompt, [])
  {
  }

  /** A turn whose reply asks for SQL that the warehouse answers with
      non-empty rows raises exactly when the rows frame to one by one with a
      non-string label or a non-numeric value. Otherwise it completes,
      showing a KPI in the reply's format for a one-by-one frame and the
      table (with its bar chart when the first two columns exist and carry
      string labels) for any other shape. */
  lemma ExecuteTurnView(rt: Runtime, s: State, prompt: string, reply: Envelope, rows: Json, shape: Shape)
    requires ModelReply(rt.backend, prompt, SerialiseHistory(rt.dumps, s.history)) == Some(reply)
    requires ActionOf(reply) == JStr("EXECUTE")
    requires rt.backend.warehouse(Get(reply, "content")) == Success(rows)
    requires Truthy(rows) && rt.frame(rows) == Some(shape)
    ensures var r := Turn(rt, s, prompt);
      && (r.Crashed? <==> KpiBreaks(shape))
      && (r.Crashed? ==> r.fault == KpiFailed)
      && (shape.rows == 1 && shape.cols == 1 && r.Completed? ==>
            r.view == Kpi(KpiFormatOf(GetOr(reply, "display_format", JStr("number")))))
      && (shape.rows != 1 || shape.cols != 1 ==>
            r.Completed? && r.view == TableAndChart(if shape.cols >= 2 && shape.labelsText then BarChart else ChartWarning))
  {
    var history := SerialiseHistory(rt.dumps, s.history);
    ExecuteBecomesData(rt.backend, prompt, history, reply, rows);
    var env := Respond(rt.backend, prompt, history);
    assert env["content"] == rows && HasRequiredKeys(env);
    if shape.rows == 1 && shape.cols == 1 {
      if KpiBreaks(shape) {
        KpiRaises(env, rt.frame, shape);
      } else {
        assert Dispatch(env, rt.frame) ==
          Shown(Kpi(KpiFormatOf(GetOr(reply, "display_format", JStr("number")))), Plain(DataPlaceholder));
      }
    } else {
      TableView(env, rt.frame, shape);
    }
  }

  /** A reply text missing either brace completes the turn with the error
      message shown and logged; nothing escapes to the page. */
  lemma BracelessTurnShowsError(rt: Runtime, s: State, prompt: string, text: string)
    requires ObjectsNeedBraces(rt.backend.parse)
    requires rt.backend.llm(prompt, SerialiseHistory(rt.dumps, s.history)) == Success(text)
    requires '{' !in text || '}' !in text
    ensures var r := Turn(rt, s, prompt);
      && r.Completed?
      && r.view.ErrorMessage?
      && r.state.messages[|s.messages| + 1].content.ErrorNote?
  {
    var history := SerialiseHistory(rt.dumps, s.history);
    BracelessReplyIsError(rt.backend, prompt, history, text);
    var env := Respond(rt.backend, prompt, history);
    assert Dispatch(env, rt.frame) == Shown(ErrorMessage(Get(env, "content")), ErrorNote(Get(env, "content")));
  }

  /** A user action on the page. */
  datatype Event = Ask(prompt: string) | ClearConversation

  /** One user action. A prompt only ever appends to both logs; a clear
      empties them; either way the log invariant is kept. */
  function Step(rt: Runtime, s: State, e: Event): (r: State)
    ensures e.Ask? ==> s.messages < r.messages && s.history <= r.history
    ensures e.ClearConversation? ==> r.messages == [] && r.history == []
    ensures WellFormed(s) ==> WellFormed(r)
  {
    match e
    case Ask(prompt) =>
      var t := Turn(rt, s, prompt);
      assert t.state.messages[..|s.messages|] == s.messages;
      if WellFormed(s) then TurnKeepsWellFormed(rt, s, prompt); t.state else t.state
    case ClearConversation => Clear(s)
  }

  /** The session after a sequence of user actions. Between clears both
      logs are append-only: with no clear among the actions, the starting
      logs are prefixes of the final ones. */
  function Run(rt: Runtime, s: State, events: seq<Event>): (r: State)
    ensures (forall i :: 0 <= i < |events| ==> events[i].Ask?) ==>
      s.messages <= r.messages && s.history <= r.history
    ensures (forall i :: 0 <= i < |events| ==> events[i].Ask?) ==> |r.messages| >= |s.messages| + |events|
    decreases |events|
  {
    if |events| == 0 then s
    else
      var next := Step(rt, s, events[0]);
      assert forall i :: 0 <= i < |events[1..]| ==> events[1..][i] == events[i + 1];
      Run(rt, next, events[1..])
  }

  /** Number of messages with the given role. */
  function Count(messages: seq<Message>, role: Role): nat
  {
    if |messages| == 0 then 0
    else Count(messages[..|messages| - 1], role) + (if messages[|messages| - 1].role == role then 1 else 0)
  }

  /** The shape both logs keep: the model-bound history alternates user and
      model entries, starting with the user, and holds one pair per logged
      assistant message; every assistant message follows a user message. */
  predicate WellFormed(s: State)
  {
    && |s.history| == 2 * Count(s.messages, AssistantRole)
    && (forall i :: 0 <= i < |s.history| ==>
          s.history[i].speaker == (if i % 2 == 0 then UserTurn else ModelTurn))
    && (forall i :: 0 <= i < |s.messages| && s.messages[i].role == AssistantRole ==>
          0 < i && s.messages[i - 1].role == UserRole)
  }

  /** A completed turn's appends keep the logs well formed. */
  lemma CompletedKeepsWellFormed(s: State, t: State, prompt: string, reply: Content, part: string)
    requires WellFormed(s)
    requires t.messages == s.messages + [Message(UserRole, Plain(prompt)), Message(AssistantRole, reply)]
    requires t.history == s.history + [Entry(UserTurn, prompt), Entry(ModelTurn, part)]
    ensures WellFormed(t)
  {
    var m1 := s.messages + [Message(UserRole, Plain(prompt))];
    assert t.messages[..|m1|] == m1;
    assert m1[..|s.messages|] == s.messages;
    assert Count(m1, AssistantRole) == Count(s.messages, AssistantRole);
    assert Count(t.messages, AssistantRole) == Count(s.messages, AssistantRole) + 1;
    forall i | 0 <= i < |t.history|
      ensures t.history[i].speaker == (if i % 2 == 0 then UserTurn else ModelTurn)
    {
      if i >= |s.history| {
        assert |s.history| % 2 == 0;
      }
    }
    forall i | 0 <= i < |t.messages| && t.messages[i].role == AssistantRole
      ensures 0 < i && t.messages[i - 1].role == UserRole
    {
      if i < |s.messages| {
        assert t.messages[i] == s.messages[i];
        assert t.messages[i - 1] == s.messages[i - 1];
      }
    }
  }

  /** A turn cut short keeps the logs well formed: only a user message was added. */
  lemma CrashedKeepsWellFormed(s: State, t: State, prompt: string)
    requires WellFormed(s)
    requires t.messages == s.messages + [Message(UserRole, Plain(prompt))]
    requires t.history == s.history
    ensures WellFormed(t)
  {
    assert t.messages[..|s.messages|] == s.messages;
  }

  lemma TurnKeepsWellFormed(rt: Runtime, s: State, prompt: string)
    requires WellFormed(s)
    ensures WellFormed(Turn(rt, s, prompt).state)
  {
    var r := Turn(rt, s, prompt);
    if r.Completed? {
      var reply := Dispatch(r.envelope, rt.frame).reply;
      var part := rt.dumps(JObj(r.envelope));
      assert r.state.messages == s.messages + [Message(UserRole, Plain(prompt)), Message(AssistantRole, reply)];
      assert r.state.history == s.history + [Entry(UserTurn, prompt), Entry(ModelTurn, part)];
      CompletedKeepsWellFormed(s, r.state, prompt, reply, part);
    } else {
      assert r.state.messages == s.messages + [Message(UserRole, Plain(prompt))];
      CrashedKeepsWellFormed(s, r.state, prompt);
    }
  }

  lemma {:induction false} RunKeepsWellFormed(rt: Runtime, s: State, events: seq<Event>)
    requires WellFormed(s)
    ensures WellFormed(Run(rt, s, events))
    decreases |events|
  {
    if |events| > 0 {
      match events[0] {
        case Ask(prompt) => TurnKeepsWellFormed(rt, s, prompt);
        case ClearConversation => assert WellFormed(Clear(s));
      }
      RunKeepsWellFormed(rt, Step(rt, s, events[0]), events[1..]);
    }
  }

  /** A session that starts from first-run initialisation (or from a session
      that was well formed) and then sees any prompts and clears stays well
      formed. */
  lemma SessionLifetimeWellFormed(rt: Runtime, existing: Option<State>, events: seq<Event>)
    requires existing.None? || WellFormed(existing.value)
    ensures WellFormed(Run(rt, Start(existing), events))
  {
    RunKeepsWellFormed(rt, Start(existing), events);
  }
}

=== FILE: wrappers.dfy ===
/** Failure-carrying values used wherever the application catches an
    exception or meets a missing value. */
module Wrappers {

  /** A value that may be absent (Python's `None`). */
  datatype Option<+T> = None | Some(value: T)

  /** The outcome of a call into foreign code: a value, or the text of the
      exception it raised. */
  datatype Result<+T, +E> = Success(value: T) | Failure(error: E)
}
